=== FILE: README.md ===
# go-jwa request dispatch, modelled in Dafny

go-jwa maps named messages onto HTTP POST endpoints. Each message handler
is wrapped in a pre-chain and a post-chain of callbacks. Each callback answers
whether processing should go on. This project models the core of
`handler.go` as pure functions over immutable values:

- `faults.dfy` (module `Faults`): the panics of the library as a `Fault`
  value, and a `Result` type that carries either the new state or the fault.
- `chain.dfy` (module `Chain`): running a callback chain in order with a
  stop at the first `false`. Callbacks are opaque ids. Their answers are an
  input, `verdict(i)` for the callback at position `i`.
- `registration.dfy` (module `Registration`): the package-level state as one
  `Registry` record. It holds the URL prefix, the global pre/post chains, the
  pending handler list, and the `messageHandlerAdded` and `serverRunning`
  flags. The module has `SetURLPrefix`, the global and per-route
  (`HandlerOptions`) callback additions, and `AddMessageHandler(Ext)`.
- `compiler.dfy` (module `Compiler`): `registerHandler`. It builds each
  route's effective chains, publishes them into a `map<string, Route>` that
  stands for the `ServeMux` (a duplicate URL is a fault), and sets the
  handler-added flag.
- `dispatch.dfy` (module `Dispatch`): `handler.ServeHTTP` as a function from a
  route and the request's outcomes to the trace of what the dispatcher did.
  The module also has an independent stage automaton (pre-chain, body read,
  procedure, reply, post-chain) that every trace is proved to follow.
- `lifecycle.dfy` (module `Lifecycle`): properties across several calls. It
  covers the freeze after compilation and which pairs of calls commute. A
  global pre-addition, a global post-addition, a registration and a prefix
  setting commute with one another. Two additions of different callbacks to
  the same global chain do not, nor do two registrations, nor two different
  prefixes that already end in `/`. It also has a
  complete set-up modelled on the example program.
- `aliasing.dfy` (module `SliceAliasing`): the chain building of
  `registerHandler` with Go slice semantics. This is the as-written half of
  the finding below.

Deviations worth knowing:

- `SetURLPrefix` has no freeze guard. It can be called after compilation.
- A prefix that already ends in `/` is stored unchanged. Repeated trailing
  slashes are not collapsed, so `/api//` keeps both.
- Compiling a second time is not refused as such. It fails iff a
  re-published URL collides. A second compilation succeeds with no pending
  handlers, and can succeed after a prefix change when no new URL is already
  in the table.
- `AddMessageHandlerExt` checks only `serverRunning`, not
  `messageHandlerAdded`.

## Model

| member | source | states |
|---|---|---|
| Chain.RunChain | handler.go:71-75 | The callbacks invoked are a prefix of the chain, in chain order. The chain proceeds iff every callback answers true. Otherwise the last callback invoked is the first one that answered false. |
| Chain.RunFrom | handler.go:111-115 | The same characterisation for the remainder of a chain from a given position. This is the recursive step of the loop. |
| Chain.StopsAtFirstRejection | handler.go:111-115 | If position k is the first false answer, exactly `chain[..k+1]` runs and the chain does not proceed. |
| Registration.NormalizePrefix | handler.go:152-156 | The result starts and ends with `/`. It extends the input by at most one character. It equals the input iff the input already ended in `/`. |
| Registration.SetURLPrefix | handler.go:142-158 | Fails iff the prefix is empty (EmptyPrefix) or does not start with `/` (PrefixNotRooted). Otherwise it stores a well-formed extension of at most one character. The stored prefix equals the input iff the input already ends in `/`. Nothing else changes. |
| Registration.NormalizeIdempotent | handler.go:152-156 | Normalising a normalised prefix leaves it unchanged. |
| Registration.SetURLPrefixIdempotent | handler.go:142-158 | Setting the same prefix twice equals setting it once. Re-setting the stored prefix is a no-op. |
| Registration.TrailingSlashesKept | handler.go:152-156 | `/api//` is stored as is, and `/api` is stored as `/api/`. |
| Registration.RegistrationPreservesValid | handler.go:62 | The initial prefix `/` is well formed, and every registration call keeps it well formed. |
| Registration.GlobalCallbackGuard | handler.go:162-168 | Passes iff neither flag is set. The handler-added fault takes precedence over the server-running fault. |
| Registration.AddPreProcedureCallback | handler.go:160-171 | Fails with the guard's faults. Otherwise it appends the callback at the end of the global pre-chain, and nothing else changes. |
| Registration.AddPostProcedureCallback | handler.go:173-184 | Fails with the guard's faults. Otherwise it appends the callback at the end of the global post-chain, and nothing else changes. |
| Registration.AddMessageHandlerExt | handler.go:193-208 | Fails iff the server is running. Otherwise it appends exactly one (name, procedure, options) entry after the kept earlier entries, and nothing else changes. |
| Registration.AddMessageHandler | handler.go:186-191 | Fails iff the server is running, with HandlerAfterServerStart. Otherwise it appends exactly one entry with the given name and procedure after the kept earlier entries, and nothing else changes. That entry has both clear flags false and both local lists empty. |
| Registration.AddLocalPreCallback | handler.go:132-135 | Appends to the route-local pre list. The clear flags and the post list are untouched. |
| Registration.AddLocalPostCallback | handler.go:137-140 | Appends to the route-local post list. The clear flags and the pre list are untouched. |
| Registration.DuplicateNamesAccepted | handler.go:203-207 | Registering a name that is already pending succeeds. |
| Compiler.PublishCorrect | handler.go:232-235 | Publishing succeeds iff the route URLs are pairwise distinct and not yet in the mux. The table then keeps the old entries and maps each route's URL to that route. A failure is DuplicateUrl of one of the routes' URLs. |
| Compiler.BuiltRoutesPublishable | handler.go:232 | Each built route's URL is prefix + name. The routes can be published iff the registry is collision free. |
| Compiler.Compile | handler.go:210-242 | Succeeds iff no URL collides, and a failure is DuplicateUrl. The table gets exactly one extra key per entry, prefix + name. The route there has pre = (clearPre ? [] : global pre) ++ local pre, with post built the same way. The only registry change is `messageHandlerAdded := true`. |
| Compiler.SamePrefixUrlsCollideIffNamesDo | handler.go:232 | Two URLs with the same prefix are equal iff the names are. |
| Compiler.CompileIntoEmptyMuxIffNamesDistinct | handler.go:232-235 | Into an empty table, compilation succeeds iff the pending names are pairwise distinct, whatever the prefix. |
| Compiler.DuplicateNameIsFatal | handler.go:234-235 | Two pending entries with the same name make compilation fail with DuplicateUrl. |
| Compiler.CompileTwiceIsFatal | handler.go:210-242 | With a non-empty pending list, compiling the result of a compilation fails. |
| Compiler.CompiledUrlsAreRooted | handler.go:232 | In a valid registry every compiled URL starts with `/` and is the key of its route. |
| Dispatch.ServeHTTP | handler.go:65-120 | The body is read iff every pre-callback passes. The procedure runs iff the body read also succeeds. A reply body is written iff the procedure returned an encodable non-int value. The post-chain starts only after a successful body write. |
| Dispatch.PreChainRunsFirstInOrder | handler.go:71-75 | The trace begins with exactly the pre-callbacks the chain run invoked, a prefix of the route's pre-chain, in order. No pre-callback appears after them. |
| Dispatch.PreRejectionEndsRequest | handler.go:71-75 | If pre-callback k is the first to answer false, the trace is exactly the pre-callbacks 0..k. |
| Dispatch.BodyReadFailureWrites417 | handler.go:80-85 | A failed body read writes 417 and the procedure is not invoked. |
| Dispatch.StatusReplySkipsPostChain | handler.go:92-95 | An int reply writes that status and ends the request. No body is written and the post-chain does not run. |
| Dispatch.WriteFailureWrites500 | handler.go:104-108 | A failed body write is followed by 500, and the post-chain is skipped. |
| Dispatch.PostChainAfterReply | handler.go:111-115 | After a successful reply the post-chain runs in order and stops at its first false answer. |
| Dispatch.WholePostChainRunsWhenAllPass | handler.go:111-115 | After a successful reply with every post-callback answering true, the whole post-chain runs in order and ends the trace. |
| Dispatch.ServeHTTPFollowsStageOrder | handler.go:65-120 | Every trace is accepted by the stage automaton. The order is pre-chain, then body read (failing only with 417), then procedure, then status, panic or body (a failed write followed only by 500), then post-chain. The trace ends at a stage where a request may end. |
| Lifecycle.CompileFreezesGlobalChains | handler.go:160-164 | After a successful compilation (which sets the flag, line 241), adding a global pre or post callback fails with CallbackAfterHandlerAdded. |
| Lifecycle.FlagsOnlyMoveForward | handler.go:241 | No registration call changes either flag. Compilation sets the handler-added flag and leaves the server-running flag alone. |
| Lifecycle.GlobalChainKeepsCallOrder | handler.go:160-184 | Two additions to the same global chain give the same registry iff they add the same callback. A pre-addition and a post-addition commute. |
| Lifecycle.PrefixOrder | handler.go:142-208 | Setting the prefix commutes with adding global callbacks and with registering a handler. Of two prefix settings the later one decides the prefix. Two different prefixes that already end in `/` do not commute. |
| Lifecycle.GlobalCallbackCommutesWithRegistration | handler.go:160-208 | While registration is open, adding a global callback and registering a handler commute. |
| Lifecycle.PlainRouteInheritsGlobalChains | handler.go:186-191 | A route registered without options compiles to exactly the global pre and post chains. |
| Lifecycle.LocalCallbackRunsLast | handler.go:224 | A callback added to a route's options ends that route's compiled pre-chain, after the (possibly cleared) globals and the earlier local callbacks. |
| Lifecycle.LateRegistrationCannotBeCompiled | handler.go:193-208 | A handler registered after compilation is accepted while the server is stopped. Compiling again then fails. |
| Lifecycle.ExampleSetupSucceeds | handler.go:142-208 | The set-up modelled on the example program succeeds step by step. It stores prefix `/api/`, global chains [1,2,3] and [4,5], and the two pending entries in registration order. |
| Lifecycle.ExampleCompiles | handler.go:210-242 | Concrete set-up under prefix `/api`. The echo route runs [1,2,3] and [4,5]. A route that clears the pre-chain and adds 6 runs [6] and [4,5]. A later global pre-addition or post-addition fails. |
| Lifecycle.MethodCheckStopsEcho | example/main.go:19-30 | When the method-check pre-callback refuses, only that callback runs. |
| Lifecycle.EchoRequestRunsWholePipeline | handler.go:65-120 | A request that passes everything runs three pre-callbacks, then body read, procedure and body write, then two post-callbacks. |
| Lifecycle.MalformedEchoRequestGets400 | example/echo.go:27-29 | A 400 status reply is written after the procedure and ends the request. |
| SliceAliasing.BuildViews | handler.go:220-230 | Appending in place keeps the array's length and the global part. A cleared route gets a private copy of its local list. Any other route either shares the array up to global plus local length, or gets a private copy of global plus local. Every shared view lies within the array. |
| SliceAliasing.CompileBuildsIntendedChains | handler.go:220-230 | After a successful compilation, the route published for each pending entry runs exactly that entry's intended pre-chain and post-chain, (clear ? [] : global) ++ local. |
| SliceAliasing.AsWrittenChains | handler.go:220-230 | Aliasing never touches a cleared route, which runs exactly its local callbacks. Every other route keeps the global part and the length global plus local, so aliasing can overwrite only its local tail. |
| SliceAliasing.OnlyLaterInPlaceWritesCorrupt | handler.go:220-230 | A route that no later route writes over in the shared array runs exactly the global part followed by its own local callbacks. Only a later in-place append corrupts a chain. |
| SliceAliasing.LastRouteRunsIntendedChain | handler.go:220-230 | Whatever the capacity, the last registered route that keeps the globals runs its intended chain. |
| SliceAliasing.AliasingCounterexample | handler.go:220-230 | With global [1,2,3] at capacity 4 and two routes adding 6 and 7, the code as written gives both routes [1,2,3,7]. The intended chains are [1,2,3,6] and [1,2,3,7]. |
| SliceAliasing.FullSliceBuildsNoAlias | handler.go:220-230 | Without spare capacity nothing is written into the shared array. Each route's view is private or the whole global slice. |
| SliceAliasing.FullSliceMatchesIntended | handler.go:220-230 | Without spare capacity the chains as written equal the intended ones. |

## Left out

- The `ServeMux == nil` panic of `AddMessageHandlerExt` (handler.go:195-197): `ServeMux` is an exported variable that `init` sets. The model assumes it is never replaced by nil.
- `http.ServeMux` pattern syntax (methods, wildcards, host names, subtree patterns): a URL is an opaque string. A collision is exact equality with a key already in the table.
- JSON encoding: a non-int reply is `Value(encodable)`. An encoding failure is the trace step `EncodePanic`. The encoded bytes are not modelled.
- Body reading and response writing are success/failure inputs. `net/http`'s own panic on an out-of-range status code in `WriteHeader` is not modelled.
- The per-request data map and what callbacks do with the writer and request: callbacks and procedures are opaque ids. Their answers are inputs.
- `serverRunning` and `ListenAndServeWithServer` live in a file that is not part of this model. The flag is a field of the registry that no modelled call sets.
- The status constant that `example/echo.go` returns for an unparseable body is defined in a file that is not part of this model. The 400 in `Lifecycle.MalformedEchoRequestGets400` is assumed.
- `internalPreProcedure` / `internalPostProcedure` (handler.go:124-130) are empty and leave no trace.
- The log line of `registerHandler` (handler.go:237).
- Concurrency between requests: the host HTTP server handles it.
- Registration.AddLocalPreCallback / AddLocalPostCallback: `HandlerOptions` is a Go value that holds slices, and its methods append in place (handler.go:52-58, 132-140). Two copies of one options value with spare capacity share a backing array, so adding to one copy can overwrite the other's last local callback. The model gives options value semantics and does not show this. It is the same class of bug as the finding below. It shows only when the caller copies one options value and extends each copy.
- Go's slice growth policy: `SliceAliasing` takes the capacity as an input. `Compiler.Compile` uses value-semantics sequences, which is the intended behaviour.
- `Compiler.Compile` models the dispatch table only as far as `registerHandler` fills it. Dispatch-time lookup by URL is done by `http.ServeMux` and is not modelled.

## Findings

| source | as written | input that shows it | evidently intended | confidence | as-written member | corrected member |
|---|---|---|---|---|---|---|
| handler.go:220-230 | A route's chain is `append(globalSlice, local...)`. When the global slice has spare capacity, the local callbacks are written into the global backing array, which every such route shares. | Add three global pre-callbacks one at a time (capacity 4 after Go's doubling), then register two routes whose options each add one pre-callback, 6 and 7. Both routes run [1,2,3,7]. | Each route runs global ++ its own local callbacks, so the two routes run [1,2,3,6] and [1,2,3,7]. | not executed; high for the aliasing, medium for the exact capacity, which depends on Go's runtime growth policy | SliceAliasing.AliasingCounterexample | Compiler.Compile |

=== FILE: aliasing.dfy ===
/** The chain building of `registerHandler` as written, with Go slice
    semantics. A route's chain starts as the global slice itself, and
    `append(chain, local...)` writes the local callbacks into the global
    slice's backing array whenever that array has room for them. Every route
    built that way shares the array, so a later route's local callbacks
    overwrite the tail an earlier route sees.

    The backing array is a sequence whose length is the slice capacity; the
    global slice is its first `len` elements.
 */
module SliceAliasing {

  import opened Chain
  import opened Registration
  import opened Compiler

  /** What a route's chain refers to: the first `len` slots of the shared
      global array, or an array of its own. */
  datatype View = Shared(len: nat) | Private(chain: seq<CallbackId>)

  /** One route's chain: `(clear, local)` from its options. */
  datatype ChainOptions = ChainOptions(clear: bool, local: seq<CallbackId>)

  /** Builds the views of all routes in order, threading the shared array.
      A cleared route appends to a nil slice and always gets an array of its
      own; otherwise the local list is written in place when it fits in the
      capacity, and copied into a fresh array when it does not. */
  function BuildViews(backing: seq<CallbackId>, len: nat, routes: seq<ChainOptions>)
    : (res: (seq<CallbackId>, seq<View>))
    requires len <= |backing|
    decreases |routes|
    ensures |res.0| == |backing| && res.0[..len] == backing[..len]
    ensures |res.1| == |routes|
    ensures forall i :: 0 <= i < |res.1| && res.1[i].Shared? ==> res.1[i].len <= |backing|
    ensures forall i :: 0 <= i < |routes| && routes[i].clear ==> res.1[i] == Private(routes[i].local)
    ensures forall i :: 0 <= i < |routes| && !routes[i].clear ==>
              || (res.1[i].Shared? && res.1[i].len == len + |routes[i].local|)
              || (res.1[i].Private? && res.1[i].chain == backing[..len] + routes[i].local)
  {
    if |routes| == 0 then
      (backing, [])
    else
      var o := routes[0];
      if o.clear then
        var (final, views) := BuildViews(backing, len, routes[1..]);
        (final, [Private(o.local)] + views)
      else if len + |o.local| <= |backing| then
        var written := backing[..len] + o.local + backing[len + |o.local|..];
        assert written[..len] == backing[..len];
        var (final, views) := BuildViews(written, len, routes[1..]);
        (final, [Shared(len + |o.local|)] + views)
      else
        var (final, views) := BuildViews(backing, len, routes[1..]);
        (final, [Private(backing[..len] + o.local)] + views)
  }

  /** The chain each route runs once every route has been built. Aliasing
      cannot touch a cleared route, nor the global prefix or the length of
      any chain: only the local tail of a route that shares the array can
      be overwritten by a later route. */
  function AsWrittenChains(backing: seq<CallbackId>, len: nat, routes: seq<ChainOptions>)
    : (chains: seq<seq<CallbackId>>)
    requires len <= |backing|
    ensures |chains| == |routes|
    ensures forall i :: 0 <= i < |routes| && routes[i].clear ==> chains[i] == routes[i].local
    ensures forall i :: 0 <= i < |routes| && !routes[i].clear ==>
              && |chains[i]| == len + |routes[i].local|
              && chains[i][..len] == backing[..len]
  {
    var (final, views) := BuildViews(backing, len, routes);
    seq(|views|, i requires 0 <= i < |views| =>
          match views[i]
          case Shared(n) => final[..n]
          case Private(c) => c)
  }

  /** The chains the compiler is meant to build: each route gets the global
      chain (unless cleared) followed by its own local list. */
  function IntendedChains(global: seq<CallbackId>, routes: seq<ChainOptions>): seq<seq<CallbackId>> {
    seq(|routes|, i requires 0 <= i < |routes| => EffectiveChain(routes[i].clear, global, routes[i].local))
  }

  /** The pre-chain options of the pending entries, in registration order. */
  function PreChainOptions(r: Registry): seq<ChainOptions> {
    seq(|r.pending|, i requires 0 <= i < |r.pending| =>
          ChainOptions(r.pending[i].options.clearPre, r.pending[i].options.localPre))
  }

  /** The post-chain options of the pending entries, in registration order. */
  function PostChainOptions(r: Registry): seq<ChainOptions> {
    seq(|r.pending|, i requires 0 <= i < |r.pending| =>
          ChainOptions(r.pending[i].options.clearPost, r.pending[i].options.localPost))
  }

  /** The corrected compiler builds the intended chains: the route published
      for every pending entry runs exactly the intended pre- and post-chain
      of that entry. */
  lemma CompileBuildsIntendedChains(r: Registry, mux: Mux, i: nat)
    requires Compile(r, mux).Ok? && i < |r.pending|
    ensures var route := Compile(r, mux).value.1[r.urlPrefix + r.pending[i].name];
            && route.pre == IntendedChains(r.globalPre, PreChainOptions(r))[i]
            && route.post == IntendedChains(r.globalPost, PostChainOptions(r))[i]
  {
  }

  /** Three global pre-callbacks appended one at a time leave the global
      slice with length 3 and capacity 4. Two routes that each add one local
      pre-callback (6, then 7) then both run [1, 2, 3, 7]: the first route
      lost its own callback 6 and runs the second route's instead. */
  lemma AliasingCounterexample()
    ensures var routes := [ChainOptions(false, [6]), ChainOptions(false, [7])];
            && AsWrittenChains([1, 2, 3, 0], 3, routes) == [[1, 2, 3, 7], [1, 2, 3, 7]]
            && IntendedChains([1, 2, 3], routes) == [[1, 2, 3, 6], [1, 2, 3, 7]]
            && AsWrittenChains([1, 2, 3, 0], 3, routes) != IntendedChains([1, 2, 3], routes)
  {
    var routes := [ChainOptions(false, [6]), ChainOptions(false, [7])];
    var b0: seq<CallbackId> := [1, 2, 3, 0];
    var b1 := b0[..3] + [6] + b0[4..];
    assert b1 == [1, 2, 3, 6];
    var b2 := b1[..3] + [7] + b1[4..];
    assert b2 == [1, 2, 3, 7];
    assert routes[1..] == [ChainOptions(false, [7])];
    assert routes[1..][1..] == [];
    assert [Shared(4)] + [] == [Shared(4)];
    assert BuildViews(b2, 3, routes[1..][1..]) == (b2, []);
    assert BuildViews(b1, 3, routes[1..]) == (b2, [Shared(4)]);
    assert routes[0] == ChainOptions(false, [6]);
    assert b0[..3] + routes[0].local + b0[3 + |routes[0].local|..] == b1;
    assert [Shared(4)] + [Shared(4)] == [Shared(4), Shared(4)];
    assert BuildViews(b0, 3, routes) == (b2, [Shared(4), Shared(4)]);
    assert b2[..4] == [1, 2, 3, 7];
    assert [1, 2, 3] + [6] == [1, 2, 3, 6];
    assert [1, 2, 3] + [7] == [1, 2, 3, 7];
  }

  /** Whether building `o`'s chain writes into the shared array of capacity
      `cap` holding `len` global callbacks. */
  predicate WritesInPlace(cap: nat, len: nat, o: ChainOptions) {
    !o.clear && len + |o.local| <= cap
  }

  /** The array after building the first route's chain. */
  function NextBacking(backing: seq<CallbackId>, len: nat, o: ChainOptions): (next: seq<CallbackId>)
    requires len <= |backing|
    ensures |next| == |backing| && next[..len] == backing[..len]
    ensures !WritesInPlace(|backing|, len, o) ==> next == backing
    ensures WritesInPlace(|backing|, len, o) ==> next[..len + |o.local|] == backing[..len] + o.local
  {
    if WritesInPlace(|backing|, len, o) then backing[..len] + o.local + backing[len + |o.local|..] else backing
  }

  /** The first route's view. */
  function HeadView(backing: seq<CallbackId>, len: nat, o: ChainOptions): View
    requires len <= |backing|
  {
    if o.clear then Private(o.local)
    else if WritesInPlace(|backing|, len, o) then Shared(len + |o.local|)
    else Private(backing[..len] + o.local)
  }

  /** One step of `BuildViews`: the first route's view, then the rest built
      on the array that route leaves behind. */
  lemma BuildViewsStep(backing: seq<CallbackId>, len: nat, routes: seq<ChainOptions>)
    requires len <= |backing| && 0 < |routes|
    ensures var next := NextBacking(backing, len, routes[0]);
            var sub := BuildViews(next, len, routes[1..]);
            BuildViews(backing, len, routes) == (sub.0, [HeadView(backing, len, routes[0])] + sub.1)
  {
  }

  /** When no route writes in place, the shared array is left as it was. */
  lemma {:induction false} NoInPlaceWriteKeepsArray(backing: seq<CallbackId>, len: nat, routes: seq<ChainOptions>)
    requires len <= |backing|
    requires forall j :: 0 <= j < |routes| ==> !WritesInPlace(|backing|, len, routes[j])
    decreases |routes|
    ensures BuildViews(backing, len, routes).0 == backing
  {
    if |routes| != 0 {
      assert forall j :: 0 <= j < |routes[1..]| ==> routes[1..][j] == routes[j + 1];
      NoInPlaceWriteKeepsArray(backing, len, routes[1..]);
    }
  }

  /** Route `i`'s view, read against the final array, is the global part
      followed by the route's own local callbacks. */
  ghost predicate ViewIsIntended(backing: seq<CallbackId>, len: nat, routes: seq<ChainOptions>, i: nat)
    requires len <= |backing| && i < |routes|
  {
    var res := BuildViews(backing, len, routes);
    && (res.1[i].Shared? ==>
          res.1[i].len <= |res.0| && res.0[..res.1[i].len] == backing[..len] + routes[i].local)
    && (res.1[i].Private? ==> res.1[i].chain == backing[..len] + routes[i].local)
  }

  /** The first route sees its intended chain when no later route writes in
      place. */
  lemma HeadViewIsIntended(backing: seq<CallbackId>, len: nat, routes: seq<ChainOptions>)
    requires len <= |backing| && 0 < |routes| && !routes[0].clear
    requires forall j :: 0 < j < |routes| ==> !WritesInPlace(|backing|, len, routes[j])
    ensures ViewIsIntended(backing, len, routes, 0)
  {
    var rest := routes[1..];
    var next := NextBacking(backing, len, routes[0]);
    assert forall j :: 0 <= j < |rest| ==> rest[j] == routes[j + 1];
    BuildViewsStep(backing, len, routes);
    NoInPlaceWriteKeepsArray(next, len, rest);
  }

  /** A later route's view is read against the same final array whether the
      build starts before or after the first route. */
  lemma ViewIsIntendedShifts(backing: seq<CallbackId>, len: nat, routes: seq<ChainOptions>, i: nat)
    requires len <= |backing| && 0 < i < |routes|
    requires ViewIsIntended(NextBacking(backing, len, routes[0]), len, routes[1..], i - 1)
    ensures ViewIsIntended(backing, len, routes, i)
  {
    BuildViewsStep(backing, len, routes);
  }

  /** A route that no later route writes over sees its intended chain. */
  lemma {:induction false} UnsharedViewIsIntended(backing: seq<CallbackId>, len: nat,
                                                  routes: seq<ChainOptions>, i: nat)
    requires len <= |backing| && i < |routes| && !routes[i].clear
    requires forall j :: i < j < |routes| ==> !WritesInPlace(|backing|, len, routes[j])
    decreases |routes|
    ensures ViewIsIntended(backing, len, routes, i)
  {
    if i == 0 {
      HeadViewIsIntended(backing, len, routes);
    } else {
      var rest := routes[1..];
      assert forall j :: 0 <= j < |rest| ==> rest[j] == routes[j + 1];
      UnsharedViewIsIntended(NextBacking(backing, len, routes[0]), len, rest, i - 1);
      ViewIsIntendedShifts(backing, len, routes, i);
    }
  }

  /** Aliasing corrupts a route only through a later route that writes in
      place; in particular the last route always runs its intended chain. */
  lemma OnlyLaterInPlaceWritesCorrupt(backing: seq<CallbackId>, len: nat, routes: seq<ChainOptions>, i: nat)
    requires len <= |backing| && i < |routes| && !routes[i].clear
    requires forall j :: i < j < |routes| ==> !WritesInPlace(|backing|, len, routes[j])
    ensures AsWrittenChains(backing, len, routes)[i] == backing[..len] + routes[i].local
  {
    UnsharedViewIsIntended(backing, len, routes, i);
  }

  /** The last route always runs the global part followed by its own local
      callbacks, whatever the capacity. */
  lemma LastRouteRunsIntendedChain(backing: seq<CallbackId>, len: nat, routes: seq<ChainOptions>)
    requires len <= |backing| && |routes| > 0 && !routes[|routes| - 1].clear
    ensures AsWrittenChains(backing, len, routes)[|routes| - 1] == backing[..len] + routes[|routes| - 1].local
  {
    OnlyLaterInPlaceWritesCorrupt(backing, len, routes, |routes| - 1);
  }

  /** With no spare capacity nothing is ever written in place: the shared
      array stays as it was and every route sees the intended chain. */
  lemma {:induction false} FullSliceBuildsNoAlias(global: seq<CallbackId>, routes: seq<ChainOptions>)
    decreases |routes|
    ensures BuildViews(global, |global|, routes).0 == global
    ensures forall i :: 0 <= i < |routes| ==>
              BuildViews(global, |global|, routes).1[i]
              == if routes[i].clear then Private(routes[i].local)
                 else if routes[i].local == [] then Shared(|global|)
                 else Private(global + routes[i].local)
  {
    if |routes| != 0 {
      var o := routes[0];
      BuildViewsStep(global, |global|, routes);
      FullSliceBuildsNoAlias(global, routes[1..]);
      var views := BuildViews(global, |global|, routes).1;
      forall i | 0 <= i < |routes|
        ensures views[i] == if routes[i].clear then Private(routes[i].local)
                            else if routes[i].local == [] then Shared(|global|)
                            else Private(global + routes[i].local)
      {
        if i == 0 {
          if !o.clear && o.local == [] {
            assert global[..|global|] + o.local + global[|global|..] == global;
          } else if !o.clear {
            assert global[..|global|] == global;
          }
        } else {
          assert routes[1..][i - 1] == routes[i];
          if !o.clear && o.local == [] {
            assert global[..|global|] + o.local + global[|global|..] == global;
          }
        }
      }
      if !o.clear && o.local == [] {
        assert global[..|global|] + o.local + global[|global|..] == global;
      }
    }
  }

  /** Without spare capacity the code as written builds the intended chains. */
  lemma FullSliceMatchesIntended(global: seq<CallbackId>, routes: seq<ChainOptions>)
    ensures AsWrittenChains(global, |global|, routes) == IntendedChains(global, routes)
  {
    FullSliceBuildsNoAlias(global, routes);
    var a := AsWrittenChains(global, |global|, routes);
    var b := IntendedChains(global, routes);
    forall i | 0 <= i < |routes| ensures a[i] == b[i] {
      if !routes[i].clear && routes[i].local == [] {
        assert global + [] == global;
        assert global[..|global|] == global;
      }
    }
  }
}

=== FILE: chain.dfy ===
/** A callback chain: an ordered list of callbacks, each of which answers
    whether processing should go on. Running a chain invokes the callbacks in
    order and stops right after the first one that answers `false`.

    Callbacks are opaque identifiers. What a callback answers depends on the
    request, the per-request data map and the response writer, none of which
    the model looks into, so the answers are an input: `verdict(i)` is the
    answer of the callback at position `i` of the chain, should it be invoked.
 */
module Chain {

  /** Opaque identity of a `ProcedureCallbackFunc`. */
  type CallbackId = nat

  /** The callbacks that were invoked, in invocation order, and whether the
      chain let processing continue. */
  datatype ChainRun = ChainRun(ran: seq<CallbackId>, proceed: bool)

  /** Every callback at a position from `lo` up to (not including) `hi`
      answers `true`. */
  ghost predicate PassesBelow(verdict: nat -> bool, lo: nat, hi: nat) {
    forall i :: lo <= i < hi ==> verdict(i)
  }

  /** Runs `chain[from..]`; the recursion follows the `for ... range` loop
      of the library, one callback per call. */
  function RunFrom(chain: seq<CallbackId>, verdict: nat -> bool, from: nat): (r: ChainRun)
    requires from <= |chain|
    decreases |chain| - from
    ensures r.ran <= chain[from..]
    ensures r.proceed <==> PassesBelow(verdict, from, |chain|)
    ensures r.proceed ==> r.ran == chain[from..]
    ensures !r.proceed ==>
              && 0 < |r.ran|
              && !verdict(from + |r.ran| - 1)
              && PassesBelow(verdict, from, from + |r.ran| - 1)
  {
    if from == |chain| then
      ChainRun([], true)
    else if verdict(from) then
      var rest := RunFrom(chain, verdict, from + 1);
      ChainRun([chain[from]] + rest.ran, rest.proceed)
    else
      ChainRun([chain[from]], false)
  }

  /** Runs a whole chain. The invoked callbacks are a prefix of the chain;
      the chain proceeds exactly when every callback answers `true`, and
      otherwise it stopped at the first callback that answered `false`. */
  function RunChain(chain: seq<CallbackId>, verdict: nat -> bool): (r: ChainRun)
    ensures r.ran <= chain
    ensures r.proceed <==> PassesBelow(verdict, 0, |chain|)
    ensures r.proceed ==> r.ran == chain
    ensures !r.proceed ==>
              && 0 < |r.ran|
              && !verdict(|r.ran| - 1)
              && PassesBelow(verdict, 0, |r.ran| - 1)
  {
    RunFrom(chain, verdict, 0)
  }

  /** The converse reading: if position `k` is the first `false`, the run
      invoked exactly the callbacks `chain[..k+1]` and nothing after. */
  lemma StopsAtFirstRejection(chain: seq<CallbackId>, verdict: nat -> bool, k: nat)
    requires k < |chain|
    requires !verdict(k)
    requires PassesBelow(verdict, 0, k)
    ensures RunChain(chain, verdict) == ChainRun(chain[..k + 1], false)
  {
  }
}

=== FILE: compiler.dfy ===
/** The pipeline compiler (`registerHandler`): turns every pending
    registration into a route with its effective callback chains, publishes
    the routes into the dispatch table under prefix + name, and then marks
    the handlers as added, which freezes the global chains.
 */
module Compiler {

  import opened Faults
  import opened Chain
  import opened Registration

  /** A compiled route: what the dispatcher runs for one URL. */
  datatype Route = Route(
    url: string,
    pre: seq<CallbackId>,
    procedure: ProcedureId,
    post: seq<CallbackId>)

  /** The dispatch table (`http.ServeMux`), keyed by exact URL. */
  type Mux = map<string, Route>

  /** The global chain, or nothing when the route clears it, followed by the
      route-local list. */
  function EffectiveChain(clear: bool, global: seq<CallbackId>, local: seq<CallbackId>): seq<CallbackId> {
    (if clear then [] else global) + local
  }

  /** The route one pending entry compiles to under the current globals. */
  function BuildRoute(r: Registry, e: Entry): Route {
    Route(r.urlPrefix + e.name,
          EffectiveChain(e.options.clearPre, r.globalPre, e.options.localPre),
          e.procedure,
          EffectiveChain(e.options.clearPost, r.globalPost, e.options.localPost))
  }

  /** All routes, in registration order. */
  function BuildRoutes(r: Registry): seq<Route> {
    seq(|r.pending|, i requires 0 <= i < |r.pending| => BuildRoute(r, r.pending[i]))
  }

  /** No two routes share a URL and none is already taken in `mux`. */
  ghost predicate Publishable(mux: Mux, routes: seq<Route>) {
    && (forall i, j :: 0 <= i < j < |routes| ==> routes[i].url != routes[j].url)
    && (forall i :: 0 <= i < |routes| ==> routes[i].url !in mux)
  }

  /** `ServeMux.Handle` for each route in order; a URL that is already
      registered is fatal. */
  function Publish(mux: Mux, routes: seq<Route>): Result<Mux>
    decreases |routes|
  {
    if |routes| == 0 then
      Ok(mux)
    else if routes[0].url in mux then
      Err(DuplicateUrl(routes[0].url))
    else
      Publish(mux[routes[0].url := routes[0]], routes[1..])
  }

  /** Publishing succeeds exactly when no URL collides; the table then holds
      the old entries unchanged plus exactly one entry per route, and a
      failure names a URL of one of the routes. */
  lemma {:induction false} PublishCorrect(mux: Mux, routes: seq<Route>)
    decreases |routes|
    ensures Publish(mux, routes).Ok? <==> Publishable(mux, routes)
    ensures Publish(mux, routes).Ok? ==>
              var table := Publish(mux, routes).value;
              && (forall u :: u in table <==> u in mux || exists i :: 0 <= i < |routes| && routes[i].url == u)
              && (forall u :: u in mux ==> table[u] == mux[u])
              && (forall i :: 0 <= i < |routes| ==> table[routes[i].url] == routes[i])
    ensures Publish(mux, routes).Err? ==>
              var f := Publish(mux, routes).fault;
              && f.DuplicateUrl?
              && exists i :: 0 <= i < |routes| && routes[i].url == f.url
  {
    if |routes| == 0 {
    } else if routes[0].url in mux {
      assert !Publishable(mux, routes);
    } else {
      var head := routes[0];
      var m' := mux[head.url := head];
      var tail := routes[1..];
      PublishCorrect(m', tail);
      assert forall i :: 0 <= i < |tail| ==> tail[i] == routes[i + 1];
      if Publishable(mux, routes) {
        assert Publishable(m', tail) by {
          forall i, j | 0 <= i < j < |tail| ensures tail[i].url != tail[j].url {
            assert tail[i] == routes[i + 1] && tail[j] == routes[j + 1];
          }
          forall i | 0 <= i < |tail| ensures tail[i].url !in m' {
            assert tail[i] == routes[i + 1];
            assert routes[0].url != routes[i + 1].url;
          }
        }
      }
      if Publishable(m', tail) {
        forall i, j | 0 <= i < j < |routes| ensures routes[i].url != routes[j].url {
          if i == 0 {
            assert routes[j] == tail[j - 1];
          } else {
            assert routes[i] == tail[i - 1] && routes[j] == tail[j - 1];
          }
        }
        forall i | 0 <= i < |routes| ensures routes[i].url !in mux {
          if 0 < i {
            assert routes[i] == tail[i - 1];
          }
        }
        var table := Publish(m', tail).value;
        forall u | u in table ensures u in mux || exists i :: 0 <= i < |routes| && routes[i].url == u {
          if u !in mux && u != head.url {
            var k :| 0 <= k < |tail| && tail[k].url == u;
            assert routes[k + 1].url == u;
          }
        }
        forall u | u in mux || (exists i :: 0 <= i < |routes| && routes[i].url == u) ensures u in table {
          if u !in mux && u != head.url {
            var k :| 0 <= k < |routes| && routes[k].url == u;
            assert tail[k - 1].url == u;
          }
        }
        forall i | 0 <= i < |routes| ensures table[routes[i].url] == routes[i] {
          if 0 < i {
            assert routes[i] == tail[i - 1];
          } else {
            assert head.url in m';
            assert table[head.url] == m'[head.url];
          }
        }
      } else {
        var f := Publish(m', tail).fault;
        var k :| 0 <= k < |tail| && tail[k].url == f.url;
        assert routes[k + 1].url == f.url;
      }
    }
  }

  /** URLs of the pending entries are pairwise distinct and free in `mux`. */
  ghost predicate CollisionFree(r: Registry, mux: Mux) {
    && (forall i, j :: 0 <= i < j < |r.pending| ==>
          r.urlPrefix + r.pending[i].name != r.urlPrefix + r.pending[j].name)
    && (forall i :: 0 <= i < |r.pending| ==> r.urlPrefix + r.pending[i].name !in mux)
  }

  /** `registerHandler`. It succeeds exactly when no URL collides; the table
      then maps prefix + name of every pending entry to a route whose chains
      are the (possibly cleared) global chain followed by the local list, and
      the only change to the registry is the handler-added flag. */
  function Compile(r: Registry, mux: Mux): (res: Result<(Registry, Mux)>)
    ensures res.Ok? <==> CollisionFree(r, mux)
    ensures res.Err? ==> res.fault.DuplicateUrl?
    ensures res.Ok? ==>
              && res.value.0.messageHandlerAdded
              && res.value.0.(messageHandlerAdded := r.messageHandlerAdded) == r
    ensures res.Ok? ==>
              var table := res.value.1;
              && (forall u :: u in table <==>
                    u in mux || exists i :: 0 <= i < |r.pending| && r.urlPrefix + r.pending[i].name == u)
              && (forall u :: u in mux ==> table[u] == mux[u])
              && forall i :: 0 <= i < |r.pending| ==>
                   var e := r.pending[i];
                   var route := table[r.urlPrefix + e.name];
                   && route.url == r.urlPrefix + e.name
                   && route.procedure == e.procedure
                   && route.pre == (if e.options.clearPre then [] else r.globalPre) + e.options.localPre
                   && route.post == (if e.options.clearPost then [] else r.globalPost) + e.options.localPost
  {
    var routes := BuildRoutes(r);
    PublishCorrect(mux, routes);
    BuiltRoutesPublishable(r, mux);
    var table :- Publish(mux, routes);
    assert forall i :: 0 <= i < |r.pending| ==> routes[i] == BuildRoute(r, r.pending[i]);
    Ok((r.(messageHandlerAdded := true), table))
  }

  /** The built routes carry prefix + name as URL, so they can be published
      exactly when the registry is collision free. */
  lemma BuiltRoutesPublishable(r: Registry, mux: Mux)
    ensures |BuildRoutes(r)| == |r.pending|
    ensures forall i :: 0 <= i < |r.pending| ==> BuildRoutes(r)[i].url == r.urlPrefix + r.pending[i].name
    ensures Publishable(mux, BuildRoutes(r)) <==> CollisionFree(r, mux)
  {
  }

  /** URLs share the prefix, so they collide exactly when the names do. */
  lemma {:induction false} SamePrefixUrlsCollideIffNamesDo(prefix: string, a: string, b: string)
    ensures prefix + a == prefix + b <==> a == b
  {
    if prefix + a == prefix + b {
      assert a == (prefix + a)[|prefix|..];
      assert b == (prefix + b)[|prefix|..];
    }
  }

  /** Two pending entries with the same name make compilation fail. */
  lemma DuplicateNameIsFatal(r: Registry, mux: Mux, i: nat, j: nat)
    requires i < j < |r.pending|
    requires r.pending[i].name == r.pending[j].name
    ensures Compile(r, mux).Err?
    ensures Compile(r, mux).fault.DuplicateUrl?
  {
  }

  /** Names of the pending entries are pairwise distinct. */
  ghost predicate DistinctNames(r: Registry) {
    forall i, j :: 0 <= i < j < |r.pending| ==> r.pending[i].name != r.pending[j].name
  }

  /** Into an empty table the pending entries compile exactly when their
      names are pairwise distinct: the prefix plays no part in a collision. */
  lemma CompileIntoEmptyMuxIffNamesDistinct(r: Registry)
    ensures Compile(r, map[]).Ok? <==> DistinctNames(r)
  {
    forall i, j | 0 <= i < j < |r.pending|
      ensures r.urlPrefix + r.pending[i].name == r.urlPrefix + r.pending[j].name
              <==> r.pending[i].name == r.pending[j].name
    {
      SamePrefixUrlsCollideIffNamesDo(r.urlPrefix, r.pending[i].name, r.pending[j].name);
    }
  }

  /** With pending entries present, compiling a second time fails: every
      URL is already in the table. */
  lemma CompileTwiceIsFatal(r: Registry, mux: Mux)
    requires Compile(r, mux).Ok?
    requires 0 < |r.pending|
    ensures var (r', table) := Compile(r, mux).value;
            Compile(r', table).Err?
  {
  }

  /** A valid registry compiles to URLs that all start with `/`. */
  lemma CompiledUrlsAreRooted(r: Registry, mux: Mux, i: nat)
    requires Valid(r) && i < |r.pending|
    requires Compile(r, mux).Ok?
    ensures var u := r.urlPrefix + r.pending[i].name;
            StartsWithSlash(u) && Compile(r, mux).value.1[u].url == u
  {
  }
}

=== FILE: dispatch.dfy ===
/** The dispatcher (`handler.ServeHTTP`): the per-request run of one
    compiled route. The pre-chain runs first and may stop the request; then
    the body is read, the procedure is invoked, its reply is written and, if
    that went well, the post-chain runs.

    Everything the request depends on from outside is an input (`Request`):
    the callbacks' answers, whether reading the body and writing the reply
    succeed, and the shape of the procedure's reply. The result is the trace
    of what the dispatcher did, in order.
 */
module Dispatch {

  import opened Chain
  import opened Registration
  import opened Compiler

  /** `http.StatusExpectationFailed`, written when the body cannot be read. */
  const StatusExpectationFailed := 417
  /** `http.StatusInternalServerError`, written when the reply cannot be sent. */
  const StatusInternalServerError := 500

  /** What the procedure returned: a bare `int` is a status code; any other
      value is JSON-encoded, which either works or is a programming error. */
  datatype Reply = StatusCode(code: int) | Value(encodable: bool)

  datatype Request = Request(
    preVerdict: nat -> bool,
    bodyReadOk: bool,
    reply: Reply,
    writeOk: bool,
    postVerdict: nat -> bool)

  datatype Step =
    | PreCallback(cb: CallbackId)
    | ReadBody
    | Invoke(procedure: ProcedureId)
    | WriteStatus(code: int)
    | WriteBody
    /** `json.Marshal` failed and the dispatcher panicked. */
    | EncodePanic
    | PostCallback(cb: CallbackId)

  /** The trace steps of the pre-callbacks `ids`, invoked in that order. */
  function PreSteps(ids: seq<CallbackId>): seq<Step> {
    seq(|ids|, i requires 0 <= i < |ids| => PreCallback(ids[i]))
  }

  /** The trace steps of the post-callbacks `ids`, invoked in that order. */
  function PostSteps(ids: seq<CallbackId>): seq<Step> {
    seq(|ids|, i requires 0 <= i < |ids| => PostCallback(ids[i]))
  }

  /** Some step of the trace is a post-callback. */
  predicate PostChainStarted(t: seq<Step>) {
    exists i :: 0 <= i < |t| && t[i].PostCallback?
  }

  /** What happens after the procedure returned. */
  function ReplySteps(route: Route, req: Request): seq<Step> {
    match req.reply
    case StatusCode(c) => [WriteStatus(c)]
    case Value(encodable) =>
      if !encodable then [EncodePanic]
      else if !req.writeOk then [WriteBody, WriteStatus(StatusInternalServerError)]
      else [WriteBody] + PostSteps(RunChain(route.post, req.postVerdict).ran)
  }

  /** `handler.ServeHTTP`. The body is read exactly when every pre-callback
      let the request through, the procedure runs exactly when moreover the
      body could be read, the reply body is written exactly when moreover the
      procedure returned an encodable non-status value, and the post-chain
      only starts after a reply body was written successfully. */
  function ServeHTTP(route: Route, req: Request): (t: seq<Step>)
    ensures ReadBody in t <==> PassesBelow(req.preVerdict, 0, |route.pre|)
    ensures Invoke(route.procedure) in t <==> PassesBelow(req.preVerdict, 0, |route.pre|) && req.bodyReadOk
    ensures WriteBody in t <==> Invoke(route.procedure) in t && req.reply == Value(true)
    ensures PostChainStarted(t) ==> WriteBody in t && req.writeOk
  {
    var pre := RunChain(route.pre, req.preVerdict);
    if !pre.proceed then
      PreSteps(pre.ran)
    else if !req.bodyReadOk then
      PreSteps(pre.ran) + [ReadBody, WriteStatus(StatusExpectationFailed)]
    else
      PreSteps(pre.ran) + [ReadBody, Invoke(route.procedure)] + ReplySteps(route, req)
  }

  /** The pre-callbacks run first and in chain order: the trace starts with
      the part of the pre-chain the chain run invoked, and no pre-callback
      appears anywhere after it. */
  lemma PreChainRunsFirstInOrder(route: Route, req: Request)
    ensures var t := ServeHTTP(route, req);
            var k := |RunChain(route.pre, req.preVerdict).ran|;
            && k <= |route.pre| && k <= |t|
            && t[..k] == PreSteps(route.pre[..k])
            && forall j :: k <= j < |t| ==> !t[j].PreCallback?
  {
  }

  /** A pre-callback answering `false` ends the request: the trace is the
      pre-callbacks up to and including that one, and nothing after it. */
  lemma PreRejectionEndsRequest(route: Route, req: Request, k: nat)
    requires k < |route.pre|
    requires !req.preVerdict(k) && PassesBelow(req.preVerdict, 0, k)
    ensures ServeHTTP(route, req) == PreSteps(route.pre[..k + 1])
  {
  }

  /** A body that cannot be read is answered with 417 and the procedure is
      not invoked. */
  lemma BodyReadFailureWrites417(route: Route, req: Request)
    requires PassesBelow(req.preVerdict, 0, |route.pre|)
    requires !req.bodyReadOk
    ensures ServeHTTP(route, req) == PreSteps(route.pre) + [ReadBody, WriteStatus(417)]
  {
  }

  /** A bare status reply is written as the status and ends the request:
      no body and no post-chain. */
  lemma StatusReplySkipsPostChain(route: Route, req: Request, code: int)
    requires PassesBelow(req.preVerdict, 0, |route.pre|)
    requires req.bodyReadOk && req.reply == StatusCode(code)
    ensures ServeHTTP(route, req) == PreSteps(route.pre) + [ReadBody, Invoke(route.procedure), WriteStatus(code)]
    ensures !PostChainStarted(ServeHTTP(route, req))
  {
  }

  /** A reply body that cannot be written is followed by 500 and the
      post-chain is skipped. */
  lemma WriteFailureWrites500(route: Route, req: Request)
    requires PassesBelow(req.preVerdict, 0, |route.pre|)
    requires req.bodyReadOk && req.reply == Value(true) && !req.writeOk
    ensures ServeHTTP(route, req)
         == PreSteps(route.pre) + [ReadBody, Invoke(route.procedure), WriteBody, WriteStatus(500)]
    ensures !PostChainStarted(ServeHTTP(route, req))
  {
  }

  /** When the reply was written, the post-chain runs in order and stops at
      its first callback answering `false`. */
  lemma PostChainAfterReply(route: Route, req: Request, k: nat)
    requires PassesBelow(req.preVerdict, 0, |route.pre|)
    requires req.bodyReadOk && req.reply == Value(true) && req.writeOk
    requires k < |route.post|
    requires !req.postVerdict(k) && PassesBelow(req.postVerdict, 0, k)
    ensures ServeHTTP(route, req)
         == PreSteps(route.pre) + [ReadBody, Invoke(route.procedure), WriteBody] + PostSteps(route.post[..k + 1])
  {
  }

  /** When the reply was written and every post-callback answers `true`,
      the whole post-chain runs, in order, and ends the request. */
  lemma WholePostChainRunsWhenAllPass(route: Route, req: Request)
    requires PassesBelow(req.preVerdict, 0, |route.pre|)
    requires req.bodyReadOk && req.reply == Value(true) && req.writeOk
    requires PassesBelow(req.postVerdict, 0, |route.post|)
    ensures ServeHTTP(route, req)
         == PreSteps(route.pre) + [ReadBody, Invoke(route.procedure), WriteBody] + PostSteps(route.post)
  {
  }

  /** The stages of one request. `Stuck` is the state of a trace that does
      not follow the stage order. */
  datatype Stage = PreChain | BodyRead | Procedure | Replied | PostChain | Done | Stuck

  /** The stage order, independent of `ServeHTTP`: the pre-chain, then the
      body read (which fails only with 417), then the procedure, then either
      a status, a panic or a body (a failed body write is followed only by
      500), then the post-chain. */
  function Next(s: Stage, step: Step): Stage {
    match (s, step)
    case (PreChain, PreCallback(_)) => PreChain
    case (PreChain, ReadBody) => BodyRead
    case (BodyRead, WriteStatus(c)) => if c == StatusExpectationFailed then Done else Stuck
    case (BodyRead, Invoke(_)) => Procedure
    case (Procedure, WriteStatus(_)) => Done
    case (Procedure, EncodePanic) => Done
    case (Procedure, WriteBody) => Replied
    case (Replied, WriteStatus(c)) => if c == StatusInternalServerError then Done else Stuck
    case (Replied, PostCallback(_)) => PostChain
    case (PostChain, PostCallback(_)) => PostChain
    case _ => Stuck
  }

  function Walk(s: Stage, t: seq<Step>): Stage
    decreases |t|
  {
    if |t| == 0 then s else Walk(Next(s, t[0]), t[1..])
  }

  /** A request may end anywhere except in the middle of the body read or
      the procedure call. */
  predicate Finished(s: Stage) {
    s in {PreChain, Replied, PostChain, Done}
  }

  lemma {:induction false} WalkAppend(s: Stage, a: seq<Step>, b: seq<Step>)
    decreases |a|
    ensures Walk(s, a + b) == Walk(Walk(s, a), b)
  {
    if |a| == 0 {
      assert a + b == b;
    } else {
      assert (a + b)[1..] == a[1..] + b;
      WalkAppend(Next(s, a[0]), a[1..], b);
    }
  }

  lemma {:induction false} WalkPreSteps(ids: seq<CallbackId>)
    decreases |ids|
    ensures Walk(PreChain, PreSteps(ids)) == PreChain
  {
    if |ids| != 0 {
      assert PreSteps(ids)[1..] == PreSteps(ids[1..]);
      WalkPreSteps(ids[1..]);
    }
  }

  lemma {:induction false} WalkPostSteps(s: Stage, ids: seq<CallbackId>)
    requires s == Replied || s == PostChain
    decreases |ids|
    ensures Walk(s, PostSteps(ids)) == if |ids| == 0 then s else PostChain
  {
    if |ids| != 0 {
      assert PostSteps(ids)[1..] == PostSteps(ids[1..]);
      WalkPostSteps(PostChain, ids[1..]);
    }
  }

  /** Every trace `ServeHTTP` produces follows the stage order and ends in a
      stage where a request may end. */
  lemma ServeHTTPFollowsStageOrder(route: Route, req: Request)
    ensures Finished(Walk(PreChain, ServeHTTP(route, req)))
  {
    var pre := RunChain(route.pre, req.preVerdict);
    var head := PreSteps(pre.ran);
    WalkPreSteps(pre.ran);
    if !pre.proceed {
    } else if !req.bodyReadOk {
      var tail := [ReadBody, WriteStatus(StatusExpectationFailed)];
      WalkAppend(PreChain, head, tail);
      assert Walk(PreChain, tail) == Walk(BodyRead, tail[1..]);
      assert Walk(BodyRead, tail[1..]) == Walk(Done, tail[2..]) == Done;
      assert ServeHTTP(route, req) == head + tail;
    } else {
      var reply := ReplySteps(route, req);
      var mid := [ReadBody, Invoke(route.procedure)];
      assert ServeHTTP(route, req) == head + mid + reply;
      WalkAppend(PreChain, head + mid, reply);
      WalkAppend(PreChain, head, mid);
      assert Walk(PreChain, mid) == Walk(BodyRead, mid[1..]) == Walk(Procedure, mid[2..]);
      match req.reply
      case StatusCode(c) =>
        assert Walk(Procedure, reply) == Walk(Done, reply[1..]);
      case Value(encodable) =>
        if !encodable {
          assert Walk(Procedure, reply) == Walk(Done, reply[1..]);
        } else if !req.writeOk {
          assert Walk(Procedure, reply) == Walk(Replied, reply[1..]) == Walk(Done, reply[2..]);
        } else {
          var post := RunChain(route.post, req.postVerdict).ran;
          WalkAppend(Procedure, [WriteBody], PostSteps(post));
          assert Walk(Procedure, [WriteBody]) == Walk(Replied, []);
          WalkPostSteps(Replied, post);
        }
    }
  }
}

=== FILE: faults.dfy ===
/** Faults raised by the registration API and the pipeline compiler.

    In the library every one of these is a `panic`: a programming error that
    is meant to be caught once during development. The model returns them as
    the failure half of a `Result` so that the error paths can be stated and
    proved about instead of being excluded by preconditions.
 */
module Faults {

  datatype Fault =
    /** `SetURLPrefix` was given the empty string. */
    | EmptyPrefix
    /** `SetURLPrefix` was given a prefix whose first character is not `/`. */
    | PrefixNotRooted(prefix: string)
    /** A global callback was added after the handlers were compiled. */
    | CallbackAfterHandlerAdded
    /** A global callback was added after the server was started. */
    | CallbackAfterServerStart
    /** A message handler was registered after the server was started. */
    | HandlerAfterServerStart
    /** Two routes (or a route and an existing mux entry) share one URL. */
    | DuplicateUrl(url: string)

  /** Success carries the new value; failure carries the fault raised. */
  datatype Result<+T> = Ok(value: T) | Err(fault: Fault) {

    predicate IsFailure() {
      Err?
    }

    function PropagateFailure<U>(): Result<U>
      requires Err?
    {
      Err(fault)
    }

    function Extract(): T
      requires Ok?
    {
      value
    }
  }
}

=== FILE: lifecycle.dfy ===
/** Properties that relate several registration calls, the compiler and the
    dispatcher: the freeze discipline, which pairs of registration calls
    commute and which do not, and complete set-up scenarios.
 */
module Lifecycle {

  import opened Faults
  import opened Chain
  import opened Registration
  import opened Compiler
  import opened Dispatch

  /** After compilation no global callback can be added any more, so a late
      addition can never be missing from the routes compiled before it. */
  lemma CompileFreezesGlobalChains(r: Registry, mux: Mux, cb: CallbackId)
    requires Compile(r, mux).Ok?
    ensures var r' := Compile(r, mux).value.0;
            && AddPreProcedureCallback(r', cb) == Err(CallbackAfterHandlerAdded)
            && AddPostProcedureCallback(r', cb) == Err(CallbackAfterHandlerAdded)
  {
  }

  /** No registration call clears the handler-added flag, and none of them,
      nor the compiler, touches the server-running flag. */
  lemma FlagsOnlyMoveForward(r: Registry, mux: Mux, prefix: string, cb: CallbackId,
                             name: string, procedure: ProcedureId, options: HandlerOptions)
    ensures var res := SetURLPrefix(r, prefix);
            res.Ok? ==> res.value.messageHandlerAdded == r.messageHandlerAdded
                        && res.value.serverRunning == r.serverRunning
    ensures var res := AddPreProcedureCallback(r, cb);
            res.Ok? ==> res.value.messageHandlerAdded == r.messageHandlerAdded
                        && res.value.serverRunning == r.serverRunning
    ensures var res := AddPostProcedureCallback(r, cb);
            res.Ok? ==> res.value.messageHandlerAdded == r.messageHandlerAdded
                        && res.value.serverRunning == r.serverRunning
    ensures var res := AddMessageHandlerExt(r, name, procedure, options);
            res.Ok? ==> res.value.messageHandlerAdded == r.messageHandlerAdded
                        && res.value.serverRunning == r.serverRunning
    ensures var res := Compile(r, mux);
            res.Ok? ==> res.value.0.messageHandlerAdded && res.value.0.serverRunning == r.serverRunning
  {
  }

  /** While registration is open, adding a global callback and registering
      a handler commute: the compiler reads the global chains only when it
      runs, so every route inherits callbacks added before or after it. */
  lemma GlobalCallbackCommutesWithRegistration(r: Registry, cb: CallbackId, name: string,
                                               procedure: ProcedureId, options: HandlerOptions)
    requires !r.messageHandlerAdded && !r.serverRunning
    ensures AddPreProcedureCallback(r, cb).Ok?
    ensures AddMessageHandlerExt(r, name, procedure, options).Ok?
    ensures AddMessageHandlerExt(AddPreProcedureCallback(r, cb).value, name, procedure, options)
         == AddPreProcedureCallback(AddMessageHandlerExt(r, name, procedure, options).value, cb)
    ensures AddMessageHandlerExt(AddPostProcedureCallback(r, cb).value, name, procedure, options)
         == AddPostProcedureCallback(AddMessageHandlerExt(r, name, procedure, options).value, cb)
  {
  }

  /** Two additions to the same global chain do not commute: the chain keeps
      them in call order, so swapping two different callbacks changes it.
      Additions to different chains commute with each other. */
  lemma GlobalChainKeepsCallOrder(r: Registry, a: CallbackId, b: CallbackId)
    requires !r.messageHandlerAdded && !r.serverRunning
    ensures AddPreProcedureCallback(r, a).Ok? && AddPreProcedureCallback(r, b).Ok?
    ensures AddPostProcedureCallback(r, a).Ok? && AddPostProcedureCallback(r, b).Ok?
    ensures (AddPreProcedureCallback(AddPreProcedureCallback(r, a).value, b)
             == AddPreProcedureCallback(AddPreProcedureCallback(r, b).value, a)) <==> a == b
    ensures (AddPostProcedureCallback(AddPostProcedureCallback(r, a).value, b)
             == AddPostProcedureCallback(AddPostProcedureCallback(r, b).value, a)) <==> a == b
    ensures AddPostProcedureCallback(AddPreProcedureCallback(r, a).value, b)
         == AddPreProcedureCallback(AddPostProcedureCallback(r, b).value, a)
  {
    var n := |r.globalPre|;
    var ab := AddPreProcedureCallback(AddPreProcedureCallback(r, a).value, b);
    var ba := AddPreProcedureCallback(AddPreProcedureCallback(r, b).value, a);
    assert ab.value.globalPre[n] == a && ba.value.globalPre[n] == b;
    var m := |r.globalPost|;
    var ab' := AddPostProcedureCallback(AddPostProcedureCallback(r, a).value, b);
    var ba' := AddPostProcedureCallback(AddPostProcedureCallback(r, b).value, a);
    assert ab'.value.globalPost[m] == a && ba'.value.globalPost[m] == b;
  }

  /** Setting the prefix commutes with every addition; of two prefix settings
      the later one wins, so two different rooted prefixes ending in a slash
      do not commute. */
  lemma PrefixOrder(r: Registry, p: string, q: string, cb: CallbackId, name: string,
                    procedure: ProcedureId, options: HandlerOptions)
    requires StartsWithSlash(p) && StartsWithSlash(q)
    requires !r.messageHandlerAdded && !r.serverRunning
    ensures SetURLPrefix(AddPreProcedureCallback(r, cb).value, p)
         == AddPreProcedureCallback(SetURLPrefix(r, p).value, cb)
    ensures SetURLPrefix(AddPostProcedureCallback(r, cb).value, p)
         == AddPostProcedureCallback(SetURLPrefix(r, p).value, cb)
    ensures SetURLPrefix(AddMessageHandlerExt(r, name, procedure, options).value, p)
         == AddMessageHandlerExt(SetURLPrefix(r, p).value, name, procedure, options)
    ensures SetURLPrefix(SetURLPrefix(r, p).value, q).Ok?
    ensures SetURLPrefix(SetURLPrefix(r, p).value, q).value.urlPrefix == SetURLPrefix(r, q).value.urlPrefix
    ensures EndsWithSlash(p) && EndsWithSlash(q) ==>
              (SetURLPrefix(SetURLPrefix(r, p).value, q) == SetURLPrefix(SetURLPrefix(r, q).value, p)
               <==> p == q)
  {
  }

  /** A route registered without options runs exactly the global chains. */
  lemma PlainRouteInheritsGlobalChains(r: Registry, mux: Mux, name: string, procedure: ProcedureId)
    requires !r.serverRunning
    requires Compile(AddMessageHandler(r, name, procedure).value, mux).Ok?
    ensures var route := Compile(AddMessageHandler(r, name, procedure).value, mux).value.1[r.urlPrefix + name];
            route.pre == r.globalPre && route.post == r.globalPost && route.procedure == procedure
  {
  }

  /** A callback added to a route's options runs last in that route's
      chain, after the global callbacks (unless they are cleared) and after
      the callbacks added to the options before it. */
  lemma LocalCallbackRunsLast(r: Registry, mux: Mux, name: string, procedure: ProcedureId,
                              options: HandlerOptions, cb: CallbackId)
    requires !r.serverRunning
    requires Compile(AddMessageHandlerExt(r, name, procedure, AddLocalPreCallback(options, cb)).value, mux).Ok?
    ensures var r1 := AddMessageHandlerExt(r, name, procedure, AddLocalPreCallback(options, cb)).value;
            var route := Compile(r1, mux).value.1[r.urlPrefix + name];
            route.pre == (if options.clearPre then [] else r.globalPre) + options.localPre + [cb]
  {
  }

  /** Registering a new handler after compiling is accepted while the server
      is not running, but compiling again then fails on the routes already
      in the table. */
  lemma LateRegistrationCannotBeCompiled(r: Registry, mux: Mux, name: string, procedure: ProcedureId)
    requires Compile(r, mux).Ok? && 0 < |r.pending| && !r.serverRunning
    ensures var (r', table) := Compile(r, mux).value;
            && AddMessageHandler(r', name, procedure).Ok?
            && Compile(AddMessageHandler(r', name, procedure).value, table).Err?
  {
  }

  /** A set-up modelled on the example program, not a copy of it: the
      prefix is "/api" rather than "/", all calls are made in one sequence,
      and a second handler is added. Callbacks are numbered in registration
      order: three global pre-callbacks (1 checks the method, 2 sets the
      content type, 3 records the start time), two global post-callbacks
      (4, 5), the handler "echo" (procedure 10) with default options, and a
      handler "raw" (procedure 11) that clears the global pre-chain and adds
      its own pre-callback 6. */
  function ExampleSetup(): Result<Registry> {
    var r :- SetURLPrefix(Initial, "/api");
    var r :- AddPreProcedureCallback(r, 1);
    var r :- AddPreProcedureCallback(r, 2);
    var r :- AddPreProcedureCallback(r, 3);
    var r :- AddPostProcedureCallback(r, 4);
    var r :- AddPostProcedureCallback(r, 5);
    var r :- AddMessageHandler(r, "echo", 10);
    AddMessageHandlerExt(r, "raw", 11, AddLocalPreCallback(DefaultOptions.(clearPre := true), 6))
  }

  /** The registry the example set-up arrives at. */
  const ExampleRegistry := Registry(
    "/api/", [1, 2, 3], [4, 5],
    [Entry("echo", 10, DefaultOptions), Entry("raw", 11, HandlerOptions(true, false, [6], []))],
    false, false)

  /** The set-up calls all succeed: the prefix gains its trailing slash and
      every callback and handler is appended in call order. */
  lemma ExampleSetupSucceeds()
    ensures ExampleSetup() == Ok(ExampleRegistry)
  {
    var o := HandlerOptions(true, false, [6], []);
    assert AddLocalPreCallback(DefaultOptions.(clearPre := true), 6) == o;
    var r0 := Initial.(urlPrefix := "/api/");
    assert "/api" + "/" == "/api/";
    assert SetURLPrefix(Initial, "/api") == Ok(r0);
    assert [] + [1] == [1];
    var r1 := r0.(globalPre := [1]);
    assert AddPreProcedureCallback(r0, 1) == Ok(r1);
    assert [1] + [2] == [1, 2];
    var r2 := r0.(globalPre := [1, 2]);
    assert AddPreProcedureCallback(r1, 2) == Ok(r2);
    assert [1, 2] + [3] == [1, 2, 3];
    var r3 := r0.(globalPre := [1, 2, 3]);
    assert AddPreProcedureCallback(r2, 3) == Ok(r3);
    assert [] + [4] == [4];
    var r4 := r3.(globalPost := [4]);
    assert AddPostProcedureCallback(r3, 4) == Ok(r4);
    assert [4] + [5] == [4, 5];
    var r5 := r3.(globalPost := [4, 5]);
    assert AddPostProcedureCallback(r4, 5) == Ok(r5);
    assert [] + [Entry("echo", 10, DefaultOptions)] == [Entry("echo", 10, DefaultOptions)];
    var r6 := r5.(pending := [Entry("echo", 10, DefaultOptions)]);
    assert AddMessageHandler(r5, "echo", 10) == Ok(r6);
    assert [Entry("echo", 10, DefaultOptions)] + [Entry("raw", 11, o)] == ExampleRegistry.pending;
    assert AddMessageHandlerExt(r6, "raw", 11, o) == Ok(ExampleRegistry);
  }

  /** Compiling the example: "/api/echo" runs the global chains [1, 2, 3]
      and [4, 5]; "/api/raw" runs only [6] before and [4, 5] after; no
      global callback can be added afterwards. */
  lemma ExampleCompiles()
    ensures ExampleSetup() == Ok(ExampleRegistry)
    ensures Compile(ExampleRegistry, map[]).Ok?
    ensures var (r, table) := Compile(ExampleRegistry, map[]).value;
            && table.Keys == {"/api/echo", "/api/raw"}
            && table["/api/echo"] == Route("/api/echo", [1, 2, 3], 10, [4, 5])
            && table["/api/raw"] == Route("/api/raw", [6], 11, [4, 5])
            && AddPreProcedureCallback(r, 7).Err?
            && AddPostProcedureCallback(r, 8).Err?
  {
    ExampleSetupSucceeds();
    var r := ExampleRegistry;
    assert "/api/" + "echo" == "/api/echo";
    assert "/api/" + "raw" == "/api/raw";
    assert [1, 2, 3] + [] == [1, 2, 3];
    assert [4, 5] + [] == [4, 5];
    var table := Compile(r, map[]).value.1;
    forall u ensures u in table <==> u == "/api/echo" || u == "/api/raw" {
      if u in table {
        var i :| 0 <= i < |r.pending| && r.urlPrefix + r.pending[i].name == u;
        assert i == 0 || i == 1;
      }
      if u == "/api/echo" {
        assert r.urlPrefix + r.pending[0].name == u;
      }
      if u == "/api/raw" {
        assert r.urlPrefix + r.pending[1].name == u;
      }
    }
  }

  /** A POST with any method other than the expected one is refused by the
      first pre-callback of "/api/echo" (which writes 405 itself): nothing
      after it runs, neither the procedure nor the post-chain. */
  lemma MethodCheckStopsEcho(req: Request)
    requires !req.preVerdict(0)
    ensures ServeHTTP(Route("/api/echo", [1, 2, 3], 10, [4, 5]), req) == [PreCallback(1)]
  {
  }

  /** A well-formed echo request passes the whole pipeline: the three
      pre-callbacks, the body read, the procedure, the JSON reply and both
      post-callbacks, in that order. */
  lemma EchoRequestRunsWholePipeline(req: Request)
    requires forall i :: req.preVerdict(i) && req.postVerdict(i)
    requires req.bodyReadOk && req.reply == Value(true) && req.writeOk
    ensures ServeHTTP(Route("/api/echo", [1, 2, 3], 10, [4, 5]), req)
         == [PreCallback(1), PreCallback(2), PreCallback(3), ReadBody, Invoke(10), WriteBody,
             PostCallback(4), PostCallback(5)]
  {
  }

  /** The echo procedure answers an unparseable body with the bare status
      400, which is written and ends the request before the post-chain. */
  lemma MalformedEchoRequestGets400(req: Request)
    requires forall i :: req.preVerdict(i)
    requires req.bodyReadOk && req.reply == StatusCode(400)
    ensures ServeHTTP(Route("/api/echo", [1, 2, 3], 10, [4, 5]), req)
         == [PreCallback(1), PreCallback(2), PreCallback(3), ReadBody, Invoke(10), WriteStatus(400)]
  {
  }
}

=== FILE: registration.dfy ===
/** The process-wide registration state of the library and the calls that
    change it before the server starts: the URL prefix, the two global
    callback chains, the list of pending message handlers and the two flags
    that freeze them.

    The library keeps this state in package variables; here it is one
    immutable `Registry` record and every call is a function from the old
    record to a `Result` holding the new one.
 */
module Registration {

  import opened Faults
  import opened Chain

  /** Opaque identity of a `ProcedureFunc`, the business logic of a route. */
  type ProcedureId = nat

  /** Per-route options. The clear flags drop the global chain for this
      route; the local lists are appended after the (possibly dropped)
      global chain. */
  datatype HandlerOptions = HandlerOptions(
    clearPre: bool,
    clearPost: bool,
    localPre: seq<CallbackId>,
    localPost: seq<CallbackId>)

  /** The zero value `HandlerOptions{}`: nothing cleared, nothing added. */
  const DefaultOptions := HandlerOptions(false, false, [], [])

  /** A registration waiting for the compiler. */
  datatype Entry = Entry(name: string, procedure: ProcedureId, options: HandlerOptions)

  datatype Registry = Registry(
    urlPrefix: string,
    globalPre: seq<CallbackId>,
    globalPost: seq<CallbackId>,
    pending: seq<Entry>,
    /** Set once the pending handlers have been compiled into the mux. */
    messageHandlerAdded: bool,
    /** Set by the server start-up, which is not part of this model. */
    serverRunning: bool)

  /** The state after package initialisation: prefix "/", everything else empty. */
  const Initial := Registry("/", [], [], [], false, false)

  predicate StartsWithSlash(s: string) {
    0 < |s| && s[0] == '/'
  }

  predicate EndsWithSlash(s: string) {
    0 < |s| && s[|s| - 1] == '/'
  }

  /** The shape every stored URL prefix has. */
  predicate WellFormedPrefix(s: string) {
    StartsWithSlash(s) && EndsWithSlash(s)
  }

  /** The invariant the registration calls keep. */
  predicate Valid(r: Registry) {
    WellFormedPrefix(r.urlPrefix)
  }

  /** The prefix normaliser: the shortest extension of `p` that ends in `/`. */
  function NormalizePrefix(p: string): (q: string)
    requires StartsWithSlash(p)
    ensures WellFormedPrefix(q)
    ensures p <= q && |q| <= |p| + 1
    ensures EndsWithSlash(p) <==> q == p
  {
    if EndsWithSlash(p) then p else p + "/"
  }

  /** `SetURLPrefix`: rejects the empty prefix, then one that does not start
      with `/`; otherwise stores the normalised prefix and changes nothing
      else. There is no freeze guard. */
  function SetURLPrefix(r: Registry, prefix: string): (res: Result<Registry>)
    ensures res.Ok? <==> StartsWithSlash(prefix)
    ensures |prefix| == 0 ==> res == Err(EmptyPrefix)
    ensures 0 < |prefix| && prefix[0] != '/' ==> res == Err(PrefixNotRooted(prefix))
    ensures res.Ok? ==>
              && WellFormedPrefix(res.value.urlPrefix)
              && prefix <= res.value.urlPrefix
              && |res.value.urlPrefix| <= |prefix| + 1
              && (EndsWithSlash(prefix) <==> res.value.urlPrefix == prefix)
              && res.value.(urlPrefix := r.urlPrefix) == r
  {
    if |prefix| == 0 then
      Err(EmptyPrefix)
    else if prefix[0] != '/' then
      Err(PrefixNotRooted(prefix))
    else
      Ok(r.(urlPrefix := NormalizePrefix(prefix)))
  }

  /** The shared guard of the two global-callback calls: the handler-added
      flag is checked before the server-running flag. */
  function GlobalCallbackGuard(r: Registry): (res: Result<()>)
    ensures res.Ok? <==> !r.messageHandlerAdded && !r.serverRunning
    ensures r.messageHandlerAdded ==> res == Err(CallbackAfterHandlerAdded)
    ensures !r.messageHandlerAdded && r.serverRunning ==> res == Err(CallbackAfterServerStart)
  {
    if r.messageHandlerAdded then Err(CallbackAfterHandlerAdded)
    else if r.serverRunning then Err(CallbackAfterServerStart)
    else Ok(())
  }

  /** `AddPreProcedureCallback`: appends to the global pre-chain. */
  function AddPreProcedureCallback(r: Registry, cb: CallbackId): (res: Result<Registry>)
    ensures res.Ok? <==> !r.messageHandlerAdded && !r.serverRunning
    ensures r.messageHandlerAdded ==> res == Err(CallbackAfterHandlerAdded)
    ensures !r.messageHandlerAdded && r.serverRunning ==> res == Err(CallbackAfterServerStart)
    ensures res.Ok? ==>
              && res.value.globalPre == r.globalPre + [cb]
              && res.value.(globalPre := r.globalPre) == r
  {
    var _ :- GlobalCallbackGuard(r);
    Ok(r.(globalPre := r.globalPre + [cb]))
  }

  /** `AddPostProcedureCallback`: appends to the global post-chain. */
  function AddPostProcedureCallback(r: Registry, cb: CallbackId): (res: Result<Registry>)
    ensures res.Ok? <==> !r.messageHandlerAdded && !r.serverRunning
    ensures r.messageHandlerAdded ==> res == Err(CallbackAfterHandlerAdded)
    ensures !r.messageHandlerAdded && r.serverRunning ==> res == Err(CallbackAfterServerStart)
    ensures res.Ok? ==>
              && res.value.globalPost == r.globalPost + [cb]
              && res.value.(globalPost := r.globalPost) == r
  {
    var _ :- GlobalCallbackGuard(r);
    Ok(r.(globalPost := r.globalPost + [cb]))
  }

  /** `AddMessageHandlerExt`: refused once the server runs; otherwise appends
      one entry to the pending list. Names are not checked for uniqueness,
      and the handler-added flag is not consulted. */
  function AddMessageHandlerExt(r: Registry, name: string, procedure: ProcedureId, options: HandlerOptions)
    : (res: Result<Registry>)
    ensures res.Ok? <==> !r.serverRunning
    ensures r.serverRunning ==> res == Err(HandlerAfterServerStart)
    ensures res.Ok? ==>
              && |res.value.pending| == |r.pending| + 1
              && res.value.pending[..|r.pending|] == r.pending
              && res.value.pending[|r.pending|] == Entry(name, procedure, options)
              && res.value.(pending := r.pending) == r
  {
    if r.serverRunning then
      Err(HandlerAfterServerStart)
    else
      Ok(r.(pending := r.pending + [Entry(name, procedure, options)]))
  }

  /** `AddMessageHandler`: registration with the zero-value options. */
  function AddMessageHandler(r: Registry, name: string, procedure: ProcedureId): (res: Result<Registry>)
    ensures res.Ok? <==> !r.serverRunning
    ensures r.serverRunning ==> res == Err(HandlerAfterServerStart)
    ensures res.Ok? ==>
              && |res.value.pending| == |r.pending| + 1
              && res.value.pending[..|r.pending|] == r.pending
              && res.value.(pending := r.pending) == r
              && var e := res.value.pending[|r.pending|];
                 && e.name == name && e.procedure == procedure
                 && !e.options.clearPre && !e.options.clearPost
                 && e.options.localPre == [] && e.options.localPost == []
  {
    AddMessageHandlerExt(r, name, procedure, DefaultOptions)
  }

  /** `HandlerOptions.AddPreProcedureCallback`: appends to the route-local
      pre list and leaves every other field alone. */
  function AddLocalPreCallback(o: HandlerOptions, cb: CallbackId): (o': HandlerOptions)
    ensures o'.localPre == o.localPre + [cb]
    ensures o'.(localPre := o.localPre) == o
  {
    o.(localPre := o.localPre + [cb])
  }

  /** `HandlerOptions.AddPostProcedureCallback`: appends to the route-local
      post list and leaves every other field alone. */
  function AddLocalPostCallback(o: HandlerOptions, cb: CallbackId): (o': HandlerOptions)
    ensures o'.localPost == o.localPost + [cb]
    ensures o'.(localPost := o.localPost) == o
  {
    o.(localPost := o.localPost + [cb])
  }

  /** Normalising a stored prefix again changes nothing. */
  lemma NormalizeIdempotent(p: string)
    requires StartsWithSlash(p)
    ensures NormalizePrefix(NormalizePrefix(p)) == NormalizePrefix(p)
  {
  }

  /** Setting the same prefix twice is the same as setting it once, and a
      stored prefix can be set again without change. */
  lemma SetURLPrefixIdempotent(r: Registry, prefix: string)
    requires SetURLPrefix(r, prefix).Ok?
    ensures SetURLPrefix(SetURLPrefix(r, prefix).value, prefix) == SetURLPrefix(r, prefix)
    ensures var r' := SetURLPrefix(r, prefix).value;
            SetURLPrefix(r', r'.urlPrefix) == Ok(r')
  {
  }

  /** A prefix that already ends in `/` is stored as given, so a prefix
      ending in two slashes keeps both of them. */
  lemma TrailingSlashesKept()
    ensures SetURLPrefix(Initial, "/api//") == Ok(Initial.(urlPrefix := "/api//"))
    ensures SetURLPrefix(Initial, "/api") == Ok(Initial.(urlPrefix := "/api/"))
  {
    assert "/api" + "/" == "/api/";
  }

  /** Every registration call keeps the prefix well formed. */
  lemma RegistrationPreservesValid(r: Registry, prefix: string, cb: CallbackId,
                                   name: string, procedure: ProcedureId, options: HandlerOptions)
    requires Valid(r)
    ensures Valid(Initial)
    ensures SetURLPrefix(r, prefix).Ok? ==> Valid(SetURLPrefix(r, prefix).value)
    ensures AddPreProcedureCallback(r, cb).Ok? ==> Valid(AddPreProcedureCallback(r, cb).value)
    ensures AddPostProcedureCallback(r, cb).Ok? ==> Valid(AddPostProcedureCallback(r, cb).value)
    ensures AddMessageHandlerExt(r, name, procedure, options).Ok? ==>
              Valid(AddMessageHandlerExt(r, name, procedure, options).value)
  {
  }

  /** Registering a name that is already pending is accepted. */
  lemma DuplicateNamesAccepted(r: Registry, name: string, p1: ProcedureId, p2: ProcedureId)
    requires !r.serverRunning
    ensures var r1 := AddMessageHandler(r, name, p1);
            r1.Ok? && AddMessageHandler(r1.value, name, p2).Ok?
  {
  }
}
